=== FILE: README.md ===
# Data-retrieval chatbot: decision and formatting layer

This project models, in Dafny, the core of `DataRetrievalChatbot` from
`chatbot.py`. It covers:

- how the intent catalog is flattened into a training corpus of parallel
  patterns and tags;
- how `chat` decides on an intent and a confidence from the similarity of
  the query to every corpus pattern;
- how `get_data` picks the fixed record for an intent;
- how `chat` formats the Markdown response.

The TF-IDF vectoriser and cosine similarity are not modelled. `Chatbot.Chat`
takes the scorer as a parameter: a function from the lower-cased query to
one similarity per corpus pattern. Everything downstream of the scorer is
modelled as the code does it. That covers the blank-query short cut, the
0.25 threshold, the first-maximum choice of `np.argmax`, the cap of the
confidence at 1.0, the record lookup and the response text.

Modules:

- `Options`: the option type.
- `PyStr`: the pieces of Python's `str` the chatbot uses. These are
  `isspace`/`strip`, `lower`, `replace('_', ' ')` and `title`. The
  per-letter upper-casing `UpperChar` is the map `title()` applies to the
  first letter of each word. The chatbot never calls `upper()` itself;
  `Upper` is modelled only to state that `chat(q.upper()) == chat(q)`.
- `PyFormat`: what an f-string writes for an `int`, a `str` inside a list,
  and a list of strings.
- `Catalog`: the five intents, their 41 patterns and the flattening.
- `Classify`: the maximum, the first arg-max, the clamp and the threshold
  rule.
- `Payload`: record values, records as ordered entry sequences, and
  `get_data`.
- `Chatbot`: the reply record, the response layout and `chat`.
- `Scenarios`: the catalog's behaviour on the queries the test suite uses.
  A scenario that names an intent assumes only that the scorer ranks the
  expected pattern first, with similarity 1.0 or more; the other patterns
  may score anything up to that.

Floats are modelled as `real`. Python dicts are modelled as sequences of
(key, value) entries with distinct keys, which keeps insertion order.

"weather" is a pattern of the `unknown` intent (chatbot.py:54), so a query
scored best against it, at 0.25 or more, is classified `unknown` with a
non-zero confidence
(`Scenarios.UnknownReachedByOwnPattern`); a confidence of 0.0 marks only the
reject branch. The confidence lies in [0, 1] for every scorer output,
negative similarities included, because the reject branch sets 0.0 and the
match branch needs at least 0.25 (`Chatbot.ConfidenceInUnitRange`).

## Model

| member | source | states |
|---|---|---|
| Catalog.Flatten | chatbot.py:60-67 | the corpus has one pattern and one tag per catalog pattern, and every tag is the tag of some catalog intent |
| Catalog.FlattenPlacesPattern | chatbot.py:60-67 | pattern `j` of intent `k` lands at position offset(k)+j, where offset(k) counts the patterns of the intents before `k`, beside intent `k`'s tag, so catalog order is kept |
| Catalog.FlattenCoversCorpus | chatbot.py:60-67 | every corpus position lies inside the block of positions that some intent contributes |
| Catalog.FlattenOwnsPattern | chatbot.py:60-67 | every corpus position holds a pattern of some intent, at its place within that intent, beside that intent's tag |
| Catalog.OffsetBound | chatbot.py:60-67 | each intent's block of positions ends within the corpus |
| Catalog.CatalogTags | chatbot.py:15-57 | the catalog declares five distinct tags, and every corpus tag is one of them |
| Catalog.CatalogSize | chatbot.py:15-67 | the corpus holds 41 patterns and 41 tags |
| Catalog.SalesPatternFirst | chatbot.py:17-20 | "show sales" opens the corpus, tagged sales_data |
| Catalog.UnknownOffset | chatbot.py:15-54 | the unknown intent is the fifth and its block starts at position 34, after the 9, 11, 9 and 5 patterns of the intents declared before it |
| Catalog.WeatherPatternAt34 | chatbot.py:52-67 | the corpus reaches past position 34, and position 34 holds "weather" tagged unknown |
| Classify.Max | chatbot.py:90 | `max(similarities)` bounds every similarity and is one of them |
| Classify.FirstMaxUnique | chatbot.py:94 | at most one position is the first position of the maximum |
| Classify.FirstArgMax | chatbot.py:94 | `np.argmax` returns a position holding the maximum with every earlier similarity strictly smaller |
| Classify.Clamp | chatbot.py:96 | `min(x, 1.0)` is at most 1.0 and at most `x`, and is one of the two |
| Classify.Decide | chatbot.py:89-96 | confidence is 0.0 exactly when every similarity is below 0.25, the empty list included, and then the intent is unknown; otherwise the intent is the tag at the first maximum, the confidence is that maximum capped at 1.0 and lies in [0.25, 1.0]; the intent is always unknown or a corpus tag |
| Payload.Lookup | test_chatbot_advanced.py:78 | `data[key]`: the lookup fails exactly when the key is absent, and a hit returns the value of an entry with that key |
| Payload.LookupFindsEntry | test_chatbot_advanced.py:87 | with distinct keys, as in a dict, looking up an entry's key returns that entry's value |
| Payload.DataFor | chatbot.py:116-142 | `get_data` answers every string with a non-empty record with distinct keys; only help's record holds a list; every tag outside the four with records of their own gets the single `message` entry with the fallback hint |
| Payload.DataForFields | chatbot.py:116-142 | the key order of each of the five records, and the sales, customer and inventory headline values |
| PyStr.TrimStart | chatbot.py:77 | the result is a suffix of the input, everything removed is whitespace, and a non-empty result starts with non-whitespace |
| PyStr.TrimEnd | chatbot.py:77 | the result is a prefix of the input, everything removed is whitespace, and a non-empty result ends with non-whitespace |
| PyStr.Strip | chatbot.py:77 | `strip()` returns the slice of the input left after removing only whitespace from both ends, and that slice has no whitespace at either end |
| PyStr.StripEmptyIffBlank | chatbot.py:77 | `query.strip()` is empty exactly when the query is empty or all whitespace |
| PyStr.LowerChar | chatbot.py:86 | an upper-case letter becomes the same letter in lower case and every other character is unchanged |
| PyStr.UpperChar | chatbot.py:105-107 | a lower-case letter becomes the same letter in upper case and every other character is unchanged |
| PyStr.LowerIdempotent | chatbot.py:86 | lower-casing twice is lower-casing once |
| PyStr.LowerOfUpper | chatbot.py:86 | lower-casing an upper-cased string gives the lower-cased original |
| PyStr.BlankIffLowerBlank | chatbot.py:77-86 | lower-casing neither creates nor removes a blank query |
| PyStr.CaseMapsCompose | chatbot.py:86 | each case map applied after either case map gives that case map alone |
| PyStr.TitleScan | chatbot.py:105 | `title()` as a left-to-right scan: a character after a cased letter is lower-cased and any other is upper-cased |
| PyStr.TitleScanIsTitle | chatbot.py:105 | the scan agrees with the position-wise definition: upper case at the start of each word, lower case elsewhere |
| PyStr.TitleIdempotent | chatbot.py:105 | title-casing twice is title-casing once |
| PyStr.LowerOfTitle | chatbot.py:105 | title-casing changes only the case of letters |
| PyStr.TitleSplit | chatbot.py:105 | an uncased character splits title-casing into independent halves |
| PyStr.TitleOfWord | chatbot.py:105 | a lower-case word title-cases to its capitalised form |
| PyStr.UnderscoresToSpacesConcat | chatbot.py:105 | `replace('_', ' ')` distributes over concatenation |
| PyStr.HumanizeShape | chatbot.py:105-107 | the displayed name has the key's length and no underscores; its spaces are exactly the key's underscores and spaces; it agrees with the key up to case; a lower-case letter that starts a word is upper-cased |
| PyStr.HumanizeWordThen | chatbot.py:105-107 | a lower-case word followed by an underscore is displayed capitalised and followed by a space |
| PyStr.HumanizeSnakeCase | chatbot.py:105-107 | a snake_case key of lower-case words is displayed as those words capitalised and joined by spaces |
| PyFormat.DigitChar | chatbot.py:107 | a digit value below 10 is written as a decimal digit |
| PyFormat.DigitValue | chatbot.py:107 | a decimal digit's value is below 10 and is written back as the same digit |
| PyFormat.NatToDecimal | chatbot.py:107 | `str(n)` for `n >= 0` is canonical decimal, a single digit exactly when `n < 10` |
| PyFormat.DecimalRoundTrip | chatbot.py:107 | reading back `str(n)` gives `n` |
| PyFormat.DecimalValueAtLeastLead | chatbot.py:107 | a decimal numeral's value is at least its leading digit |
| PyFormat.DecimalCanonical | chatbot.py:107 | writing the value of a canonical numeral gives the numeral back |
| PyFormat.IntToStr | chatbot.py:107 | `str(n)` starts with '-' exactly when `n < 0` and is otherwise the canonical numeral whose value is `|n|` |
| PyFormat.QuoteFor | chatbot.py:107 | `repr` quotes with `"` exactly when the string holds `'` and no `"`, and with `'` otherwise |
| PyFormat.EscapeChar | chatbot.py:107 | `repr` writes a backslash, the quote and tab, newline and carriage return as a backslash and a letter that reads back as that character, and every other character as itself |
| PyFormat.EscapePlain | chatbot.py:107 | a string with nothing to escape is written unchanged |
| PyFormat.Repr | chatbot.py:107 | `repr(s)` starts and ends with its quote, its body is each character written through `EscapeChar` with that quote, the body reads back as `s`, and it is `'s'` when `s` needs no escape |
| PyFormat.BothQuotes | chatbot.py:107 | `repr` of a string holding both quotes is single-quoted with the single quote escaped, `'\'"'` |
| PyFormat.EscapeRoundTrip | chatbot.py:107 | reading back the body `repr` writes gives the original string |
| PyFormat.ListToStr | chatbot.py:107 | `str(list)` is bracketed, and is `[]` exactly for the empty list |
| PyFormat.JoinReprsSnoc | chatbot.py:107 | one more element adds ", " and its `repr` at the end of the joined body |
| PyFormat.ListToStrSnoc | chatbot.py:107 | `str([x])` is `[` + `repr(x)` + `]`, and each further element adds ", " and its `repr` before the closing bracket |
| Chatbot.AppendLinesAddsLines | chatbot.py:106-107 | the loop over `data.items()` appends the entries' lines, in order, to what it started with |
| Chatbot.LinesSnoc | chatbot.py:106-107 | one more entry adds exactly its own line at the end |
| Chatbot.AppendLinesSnoc | chatbot.py:106-107 | one more entry makes the loop add exactly that entry's line after the text it produced before |
| Chatbot.RenderLayout | chatbot.py:105-107 | a data response is the header followed by exactly one line per entry in record order, and only the header for an empty record |
| Chatbot.RenderSnoc | chatbot.py:105-107 | a record with one more entry renders as before followed by that entry's line |
| Chatbot.Chat | chatbot.py:74-114 | a blank query gets the fixed prompt, intent unknown, empty data and 0.0; otherwise confidence is 0.0 exactly when no similarity reaches 0.25, with intent unknown, and the intent and confidence come from the first maximum, capped at 1.0; the confidence is 0.0 or in [0.25, 1.0]; the intent is unknown or a corpus tag; the data is that intent's record |
| Chatbot.ChatResponseLayout | chatbot.py:102-107 | help is answered with the help document verbatim, and every other intent with its header and one line per record entry |
| Chatbot.ConfidenceInUnitRange | chatbot.py:90-96 | the confidence lies in [0, 1] for any scorer output |
| Chatbot.BlankSkipsScoring | chatbot.py:77-83 | a blank query's reply does not depend on the scorer, and its data is empty |
| Chatbot.ChatCaseInsensitive | chatbot.py:86 | two queries with the same lower-cased form get the same reply |
| Chatbot.ChatIgnoresCase | chatbot.py:86 | a query, its upper-cased and its lower-cased form get the same reply |
| Chatbot.PatternSelfClassifies | chatbot.py:60-96 | a query scored best, and at least 0.25, against a catalog pattern is classified as that pattern's intent and gets its record |
| Chatbot.ChatPicksFirstBest | chatbot.py:89-107 | when position `k` is the first maximum and reaches the threshold, the intent, confidence, data and response all come from `tags[k]` |
| Scenarios.OneHotFirstMax | chatbot.py:94 | the 1.0 of a one-hot vector is its first maximum, so the one-hot vector meets the scenarios' assumption |
| Scenarios.EmptyAndSpacesGetPrompt | chatbot.py:77-83 | "" (as test_chatbot_advanced.py:105-107 sends) and "   " get the fixed prompt, intent unknown, no data and confidence 0.0 |
| Scenarios.CaseVariantsAgree | test_chatbot_advanced.py:123-127 | "CUSTOMER COUNT", "Customer Count" and "customer count" get the same reply |
| Scenarios.UnknownReachedByOwnPattern | chatbot.py:52-54 | a query scored best at "weather", with similarity 1.0 or more, is unknown with confidence 1.0, not 0.0 |
| Scenarios.SalesResponseText | chatbot.py:105-124 | the sales response is the "Sales Data" title line then the Total Sales, Growth, Period and Top Product lines, in that order |
| Scenarios.ShowSalesReply | test_chatbot_advanced.py:177-181 | "show sales" scored best at its own pattern, with similarity 1.0 or more, gets intent sales_data, confidence 1.0, total_sales "$245,670" and the sales response |
| Scenarios.ShowSalesIsPlain | chatbot.py:77-86 | "show sales" is not blank and lower-cases to itself |
| Scenarios.ReplyAtFirstTag | chatbot.py:94-107 | a query scored best, with similarity 1.0 or more, at a sales-tagged first position gets the sales reply |
| Scenarios.LinesOfFour | chatbot.py:106-107 | a four-entry record contributes its four lines in order |
| Scenarios.TotalSalesName | chatbot.py:107 | "total_sales" is displayed as "Total Sales" |
| Scenarios.TopProductName | chatbot.py:107 | "top_product" is displayed as "Top Product" |
| Scenarios.TotalSalesLine | chatbot.py:107 | the line of the total_sales entry (chatbot.py:120) is `**Total Sales:** $245,670` and a blank line |
| Scenarios.GrowthLine | chatbot.py:107 | the line of the growth entry (chatbot.py:121) is `**Growth:** +12.5%` and a blank line |
| Scenarios.PeriodLine | chatbot.py:107 | the line of the period entry (chatbot.py:122) is `**Period:** Last 30 days` and a blank line |
| Scenarios.TopProductLine | chatbot.py:107 | the line of the top_product entry (chatbot.py:123) is `**Top Product:** Premium Widget` and a blank line |
| Scenarios.SalesHeader | chatbot.py:105 | the sales title line shows "Sales Data" |

## Left out

- The TF-IDF vectoriser and cosine similarity (chatbot.py:69-72, 86-87) are left out. They are library numerics whose tokeniser and weighting are not in this code base. The scorer is a parameter. `Chatbot.Chat` requires its output to have one entry per corpus pattern, as the library guarantees for a fitted vectoriser.
- The vectoriser's failure on a catalog with no usable vocabulary is left out with it. The catalog here is a constant with 41 patterns.
- Similarities are `real`, not IEEE doubles, so NaN and rounding are not modelled. The clamp keeps its role of capping overshoot.
- The `nltk.download` calls (chatbot.py:6-10) are network I/O the logic does not use.
- The module-level `bot` instance (chatbot.py:175) and streamlit_app.py are a singleton and UI plumbing.
- The performance tests (test_chatbot_advanced.py:129-151) measure wall-clock time.
- Which intent a particular free-text query gets, e.g. "display sales information", depends on the vectoriser. The scenarios that name an intent assume the scorer ranks the expected pattern first with similarity 1.0 or more.
- The `responses` lists of the intents (for example chatbot.py:50, 55) are never read by `chat`.
- PyStr.LowerChar: maps only ASCII letters. Python's Unicode case tables are not modelled, so a query holding a non-ASCII character that Python lower-cases to something else (e.g. 'É', 'İ') is lower-cased differently by the model and by `query.lower()` (chatbot.py:86).
- PyStr.UpperChar: maps only ASCII letters. Inside `title()` (chatbot.py:105, 107) it is applied to tags and record keys, which are ASCII; on `Upper` of a query with non-ASCII letters it differs from Python's `upper()`, which is why `Chatbot.ChatIgnoresCase` is admitted below.
- PyStr.TitleScan: treats only ASCII letters as cased. The catalog's tags and the record keys it title-cases are ASCII, so every response the chatbot produces is covered.
- Chatbot.Chat: hands the scorer the ASCII lower-casing of the query, which differs from `query.lower()` only when the query holds a non-ASCII character that Python lower-cases to something else (e.g. 'É', 'İ').
- Chatbot.ChatIgnoresCase: holds in the model for every query, and describes the program whenever the query's cased letters are ASCII; with non-ASCII ones it can fail. In Python, "ſhow ſales".upper() is "SHOW SALES", which lower-cases to "show sales", while "ſhow ſales".lower() is unchanged, so the two queries can get different replies.
- PyFormat.EscapeChar: escapes only backslash, the quote, tab, newline and carriage return. Python's `\xNN`/`\uNNNN` escapes for other non-printable characters are not modelled. The only list value is help's, whose items are plain words, and `chat` never renders help's record (chatbot.py:102-103), so no list reaches a response.
- `get_help_response` (chatbot.py:144-172) is the constant `Chatbot.HelpText`. No property beyond its use as the help response is stated about its content.

=== FILE: catalog.dfy ===
/**
 * The intent catalog of `DataRetrievalChatbot` and its flattening into the
 * training corpus: two parallel sequences, every pattern beside the tag of
 * the intent that owns it, in catalog order.
 */
module Catalog {
  const SalesData: string := "sales_data"
  const CustomerCount: string := "customer_count"
  const Inventory: string := "inventory"
  const Help: string := "help"
  /** The fallback tag; it also owns patterns of its own. */
  const Unknown: string := "unknown"

  /** One entry of the catalog: a tag and its example phrases, in order. */
  datatype Intent = Intent(tag: string, patterns: seq<string>)

  /** The flattened catalog: `patterns[i]` was registered under `tags[i]`. */
  datatype Corpus = Corpus(patterns: seq<string>, tags: seq<string>)

  /** The catalog the chatbot is built with, in its declared order. */
  function Intents(): seq<Intent> {
    [ Intent(SalesData,
             [ "show sales", "sales data", "revenue", "sales figures",
               "total revenue", "monthly sales", "sales report",
               "what are our sales", "what is our revenue" ]),
      Intent(CustomerCount,
             [ "customer count", "how many customers", "total customers",
               "customer base", "client count", "number of customers",
               "active customers", "customer statistics", "customer total",
               "client base size", "what is our customer count" ]),
      Intent(Inventory,
             [ "inventory", "stock", "products", "inventory levels",
               "check inventory", "stock status", "warehouse stock",
               "product availability", "what is our inventory" ]),
      Intent(Help,
             [ "commands", "help", "show commands",
               "how do i use this", "show me what i can ask" ]),
      Intent(Unknown, [ "weather", "joke", "news", "time", "random", "xyz", "abc" ])
    ]
  }

  /** The number of patterns across a sequence of intents. */
  function PatternCount(intents: seq<Intent>): nat {
    if intents == [] then 0 else |intents[0].patterns| + PatternCount(intents[1..])
  }

  /**
   * The nested loop over intents and their patterns.  Both sequences have one
   * entry per pattern, and every tag is the tag of some catalog intent.
   */
  function Flatten(intents: seq<Intent>): (c: Corpus)
    ensures |c.patterns| == |c.tags| == PatternCount(intents)
    ensures forall i :: 0 <= i < |c.tags| ==> exists k :: 0 <= k < |intents| && c.tags[i] == intents[k].tag
  {
    if intents == [] then Corpus([], [])
    else
      var head := intents[0];
      var rest := Flatten(intents[1..]);
      var c := Corpus(head.patterns + rest.patterns, seq(|head.patterns|, _ => head.tag) + rest.tags);
      assert forall i :: |head.patterns| <= i < |c.tags| ==> c.tags[i] == rest.tags[i - |head.patterns|];
      c
  }

  /** Where an intent's first pattern lands in the flattened corpus. */
  function Offset(intents: seq<Intent>, k: nat): nat
    requires k <= |intents|
  {
    PatternCount(intents[..k])
  }

  /** One more intent adds its own patterns to the count. */
  lemma {:induction false} PatternCountSnoc(intents: seq<Intent>, x: Intent)
    ensures PatternCount(intents + [x]) == PatternCount(intents) + |x.patterns|
    decreases |intents|
  {
    if intents == [] {
      assert ([] + [x])[1..] == [];
    } else {
      assert (intents + [x])[1..] == intents[1..] + [x];
      PatternCountSnoc(intents[1..], x);
    }
  }

  /** The block of intent `k + 1` starts right after the block of intent `k`. */
  lemma OffsetStep(intents: seq<Intent>, k: nat)
    requires k < |intents|
    ensures Offset(intents, k + 1) == Offset(intents, k) + |intents[k].patterns|
  {
    assert intents[..k + 1] == intents[..k] + [intents[k]];
    PatternCountSnoc(intents[..k], intents[k]);
  }

  /** The patterns of the intents after the first `k` follow them in the corpus. */
  lemma {:induction false} OffsetBound(intents: seq<Intent>, k: nat)
    requires k < |intents|
    ensures Offset(intents, k) + |intents[k].patterns| <= PatternCount(intents)
    decreases k
  {
    if k > 0 {
      assert intents[..k][1..] == intents[1..][..k - 1];
      OffsetBound(intents[1..], k - 1);
    }
  }

  /**
   * Pattern `j` of intent `k` sits at position `Offset(intents, k) + j` of the
   * corpus, beside the tag of intent `k`: catalog order is kept.
   */
  lemma {:induction false} FlattenPlacesPattern(intents: seq<Intent>, k: nat, j: nat)
    requires k < |intents| && j < |intents[k].patterns|
    ensures Offset(intents, k) + j < |Flatten(intents).patterns|
    ensures Flatten(intents).patterns[Offset(intents, k) + j] == intents[k].patterns[j]
    ensures Flatten(intents).tags[Offset(intents, k) + j] == intents[k].tag
    decreases k
  {
    OffsetBound(intents, k);
    if k > 0 {
      assert intents[..k][1..] == intents[1..][..k - 1];
      FlattenPlacesPattern(intents[1..], k - 1, j);
    }
  }

  /** Conversely, every corpus position lies inside the block of some intent `k`. */
  lemma {:induction false} FlattenCoversCorpus(intents: seq<Intent>, i: nat)
    requires i < |Flatten(intents).tags|
    ensures exists k: nat :: k < |intents| && Offset(intents, k) <= i < Offset(intents, k) + |intents[k].patterns|
    decreases |intents|
  {
    var n := |intents[0].patterns|;
    assert Offset(intents, 1) == n by {
      assert intents[..1][1..] == [];
      assert PatternCount(intents[..1][1..]) == 0;
    }
    if i < n {
      assert Offset(intents, 0) == 0;
    } else {
      FlattenCoversCorpus(intents[1..], i - n);
      var k: nat :| k < |intents[1..]| && Offset(intents[1..], k) <= i - n < Offset(intents[1..], k) + |intents[1..][k].patterns|;
      assert intents[..k + 1][1..] == intents[1..][..k];
      assert Offset(intents, k + 1) == n + Offset(intents[1..], k);
    }
  }

  /**
   * Every corpus position holds a pattern of some intent `k`, at its place
   * within that intent, beside that intent's tag.
   */
  lemma FlattenOwnsPattern(intents: seq<Intent>, i: nat)
    requires i < |Flatten(intents).tags|
    ensures exists k: nat :: k < |intents| && Offset(intents, k) <= i < Offset(intents, k) + |intents[k].patterns|
              && Flatten(intents).patterns[i] == intents[k].patterns[i - Offset(intents, k)]
              && Flatten(intents).tags[i] == intents[k].tag
  {
    FlattenCoversCorpus(intents, i);
    var k: nat :| k < |intents| && Offset(intents, k) <= i < Offset(intents, k) + |intents[k].patterns|;
    var j := i - Offset(intents, k);
    FlattenPlacesPattern(intents, k, j);
    assert Offset(intents, k) + j == i;
    assert Flatten(intents).patterns[i] == intents[k].patterns[j] && Flatten(intents).tags[i] == intents[k].tag;
  }

  /** The corpus the chatbot classifies against. */
  function TheCorpus(): Corpus {
    Flatten(Intents())
  }

  /** The five tags the catalog declares, all distinct. */
  lemma CatalogTags()
    ensures |Intents()| == 5
    ensures forall a, b :: 0 <= a < b < 5 ==> Intents()[a].tag != Intents()[b].tag
    ensures forall t :: t in TheCorpus().tags ==>
              t in [SalesData, CustomerCount, Inventory, Help, Unknown]
  {
  }

  /** The catalog holds 41 patterns. */
  lemma CatalogSize()
    ensures |TheCorpus().patterns| == |TheCorpus().tags| == 41
  {
  }

  /** The sales intent's first pattern opens the corpus. */
  lemma SalesPatternFirst()
    ensures |TheCorpus().tags| == 41
    ensures TheCorpus().patterns[0] == "show sales" && TheCorpus().tags[0] == SalesData
  {
    CatalogSize();
    FlattenPlacesPattern(Intents(), 0, 0);
  }

  /** The unknown intent's block starts after the 34 patterns of the other four intents. */
  lemma UnknownOffset()
    ensures |Intents()| == 5 && Offset(Intents(), 4) == 34
  {
    var cat := Intents();
    assert Offset(cat, 0) == 0 by {
      assert cat[..0] == [];
    }
    OffsetStep(cat, 0);
    OffsetStep(cat, 1);
    OffsetStep(cat, 2);
    OffsetStep(cat, 3);
  }

  /** The unknown intent's first pattern sits at position 34 of the corpus. */
  lemma WeatherPatternAt34()
    ensures 34 < |TheCorpus().tags|
    ensures TheCorpus().patterns[34] == "weather" && TheCorpus().tags[34] == Unknown
  {
    var cat := Intents();
    UnknownOffset();
    assert cat[4].patterns[0] == "weather" && cat[4].tag == Unknown;
    FlattenPlacesPattern(cat, 4, 0);
    assert TheCorpus() == Flatten(cat);
  }
}

=== FILE: chat.dfy ===
/**
 * `DataRetrievalChatbot.chat`: the blank-input short cut, classification of
 * the lower-cased query, the record lookup and the Markdown response.
 *
 * The TF-IDF vectoriser and cosine similarity are not modelled: the caller
 * supplies `score`, which maps the lower-cased query to one similarity per
 * corpus pattern.
 */
module Chatbot {
  import opened Catalog
  import opened Classify
  import opened Payload
  import opened PyStr
  import PyFormat

  /** The answer to a blank query. */
  const EmptyPrompt: string := "Please ask a question about sales, customers, or inventory."

  /** The chart emoji that opens every data response. */
  const ChartEmoji: string := "\U{1F4CA}"

  /** `get_help_response()`: the fixed help document. */
  const HelpText: string :=
    "\n### \U{1F916} Available Commands\n\n"
    + "**\U{1F4B0} Sales & Revenue:**\n"
    + "\U{2022} show sales\n\U{2022} sales data\n\U{2022} revenue\n\U{2022} sales figures\n\n"
    + "**\U{1F465} Customer Analytics:**\n"
    + "\U{2022} customer count\n\U{2022} how many customers\n\U{2022} total customers\n\U{2022} customer statistics\n\n"
    + "**\U{1F4E6} Inventory:**\n"
    + "\U{2022} inventory\n\U{2022} stock status\n\U{2022} check inventory\n\U{2022} product availability\n\n"
    + "**\U{1F4DA} Help:**\n"
    + "\U{2022} commands\n\U{2022} help\n\n"
    + "**Try asking:** \"show sales\" or \"customer count\"\n"

  /** The dict `chat` returns. */
  datatype Reply = Reply(intent: string, response: string, data: Record, confidence: real)

  /** The title line of a data response. */
  function Header(intent: string): string {
    "### " + ChartEmoji + " " + Humanize(intent) + "\n\n"
  }

  /** The line written for one record entry. */
  function FieldLine(entry: (string, Value)): string {
    "**" + Humanize(entry.0) + ":** " + ValueText(entry.1) + "\n\n"
  }

  /** The loop over `data.items()` that appends one line per entry to `acc`. */
  function AppendLines(acc: string, data: Record): string
    decreases |data|
  {
    if data == [] then acc else AppendLines(acc + FieldLine(data[0]), data[1..])
  }

  /** The response for every tag but help. */
  function Render(intent: string, data: Record): string {
    AppendLines(Header(intent), data)
  }

  /** The field lines of a record, concatenated in order. */
  function Lines(data: Record): string {
    if data == [] then "" else FieldLine(data[0]) + Lines(data[1..])
  }

  /** The appending loop adds exactly the concatenated field lines. */
  lemma {:induction false} AppendLinesAddsLines(acc: string, data: Record)
    ensures AppendLines(acc, data) == acc + Lines(data)
    decreases |data|
  {
    if data != [] {
      AppendLinesAddsLines(acc + FieldLine(data[0]), data[1..]);
    }
  }

  /** A longer record adds exactly its last entry's line at the end. */
  lemma {:induction false} LinesSnoc(data: Record, e: (string, Value))
    ensures Lines(data + [e]) == Lines(data) + FieldLine(e)
    decreases |data|
  {
    if data == [] {
      assert [e][1..] == [];
    } else {
      assert (data + [e])[1..] == data[1..] + [e];
      LinesSnoc(data[1..], e);
    }
  }

  /** One more entry makes the loop add exactly that entry's line at the end. */
  lemma AppendLinesSnoc(acc: string, data: Record, e: (string, Value))
    ensures AppendLines(acc, data + [e]) == AppendLines(acc, data) + FieldLine(e)
  {
    AppendLinesAddsLines(acc, data);
    AppendLinesAddsLines(acc, data + [e]);
    LinesSnoc(data, e);
    PyFormat.ConcatAssoc(acc, Lines(data), FieldLine(e));
  }

  /**
   * The layout of a data response: the header, then one line per entry in the
   * record's order, and nothing else.
   */
  lemma RenderLayout(intent: string, data: Record)
    ensures Render(intent, []) == Header(intent)
    ensures Render(intent, data) == Header(intent) + Lines(data)
  {
    AppendLinesAddsLines(Header(intent), []);
    AppendLinesAddsLines(Header(intent), data);
  }

  /** A record with one more entry renders as before plus that entry's line. */
  lemma RenderSnoc(intent: string, data: Record, e: (string, Value))
    ensures Render(intent, data + [e]) == Render(intent, data) + FieldLine(e)
  {
    AppendLinesSnoc(Header(intent), data, e);
  }

  /** The response for a classified intent and its record. */
  function Respond(intent: string, data: Record): string {
    if intent == Help then HelpText else Render(intent, data)
  }

  /** The scorer answers with one similarity per corpus pattern whenever it is consulted. */
  predicate ScoresFit(corpus: Corpus, score: string -> seq<real>, query: string) {
    IsBlank(query) || |score(Lower(query))| == |corpus.tags|
  }

  /**
   * `chat(query)`.  A blank query gets the fixed prompt without scoring.  Any
   * other query is scored in lower case; it is rejected, with confidence 0.0
   * and intent unknown, exactly when no similarity reaches the threshold, and
   * otherwise takes the tag of the first best pattern with that similarity
   * capped at 1.0.  The data is the tag's record and the response is the help
   * document for help and the rendered record for every other tag.
   */
  function Chat(corpus: Corpus, score: string -> seq<real>, query: string): (r: Reply)
    requires ScoresFit(corpus, score, query)
    ensures IsBlank(query) ==> r == Reply(Unknown, EmptyPrompt, [], 0.0)
    ensures !IsBlank(query) ==>
              (r.confidence == 0.0 <==>
                 forall i :: 0 <= i < |score(Lower(query))| ==> score(Lower(query))[i] < Threshold)
    ensures r.confidence == 0.0 ==> r.intent == Unknown
    ensures !IsBlank(query) ==>
              forall i :: IsFirstMax(score(Lower(query)), i) && r.confidence != 0.0 ==>
                r.intent == corpus.tags[i] && r.confidence == Clamp(score(Lower(query))[i])
    ensures r.confidence == 0.0 || Threshold <= r.confidence <= MaxConfidence
    ensures r.intent == Unknown || r.intent in corpus.tags
    ensures !IsBlank(query) ==> r.data == DataFor(r.intent)
    ensures !IsBlank(query) ==> r.response == Respond(r.intent, r.data)
  {
    if IsBlank(query) then Reply(Unknown, EmptyPrompt, [], 0.0)
    else
      var d := Decide(corpus.tags, score(Lower(query)));
      var data := DataFor(d.intent);
      Reply(d.intent, Respond(d.intent, data), data, d.confidence)
  }

  /**
   * The response of a scored query: the help document verbatim for help, and
   * for every other intent its header followed by one line per data entry.
   */
  lemma ChatResponseLayout(corpus: Corpus, score: string -> seq<real>, query: string)
    requires !IsBlank(query) && |score(Lower(query))| == |corpus.tags|
    ensures Chat(corpus, score, query).intent == Help ==> Chat(corpus, score, query).response == HelpText
    ensures Chat(corpus, score, query).intent != Help ==>
              Chat(corpus, score, query).response ==
                Header(Chat(corpus, score, query).intent) + Lines(DataFor(Chat(corpus, score, query).intent))
  {
    var r := Chat(corpus, score, query);
    RenderLayout(r.intent, r.data);
  }

  /** Confidence always lies in [0, 1], whatever the scorer returns. */
  lemma ConfidenceInUnitRange(corpus: Corpus, score: string -> seq<real>, query: string)
    requires ScoresFit(corpus, score, query)
    ensures 0.0 <= Chat(corpus, score, query).confidence <= 1.0
  {
  }

  /** A blank query never reaches the scorer: any two scorers give the same reply. */
  lemma BlankSkipsScoring(corpus: Corpus, score1: string -> seq<real>, score2: string -> seq<real>, query: string)
    requires IsBlank(query)
    ensures Chat(corpus, score1, query) == Chat(corpus, score2, query)
    ensures Chat(corpus, score1, query).data == []
  {
  }

  /** Queries that agree once lower-cased get the same reply. */
  lemma {:induction false} ChatCaseInsensitive(corpus: Corpus, score: string -> seq<real>, q1: string, q2: string)
    requires Lower(q1) == Lower(q2)
    requires ScoresFit(corpus, score, q1)
    ensures ScoresFit(corpus, score, q2)
    ensures Chat(corpus, score, q1) == Chat(corpus, score, q2)
  {
    BlankIffLowerBlank(q1);
    BlankIffLowerBlank(q2);
  }

  /** `chat(q.upper())`, `chat(q)` and `chat(q.lower())` all agree. */
  lemma ChatIgnoresCase(corpus: Corpus, score: string -> seq<real>, q: string)
    requires ScoresFit(corpus, score, q)
    ensures ScoresFit(corpus, score, Upper(q)) && ScoresFit(corpus, score, Lower(q))
    ensures Chat(corpus, score, Upper(q)) == Chat(corpus, score, q) == Chat(corpus, score, Lower(q))
  {
    LowerOfUpper(q);
    LowerIdempotent(q);
    ChatCaseInsensitive(corpus, score, q, Upper(q));
    ChatCaseInsensitive(corpus, score, q, Lower(q));
  }

  /**
   * A catalog pattern classifies as its own intent whenever the scorer ranks
   * that pattern's own corpus position first and at or above the threshold.
   */
  lemma PatternSelfClassifies(intents: seq<Intent>, k: nat, j: nat, score: string -> seq<real>, q: string)
    requires k < |intents| && j < |intents[k].patterns|
    requires !IsBlank(q)
    requires |score(Lower(q))| == |Flatten(intents).tags|
    requires IsFirstMax(score(Lower(q)), Offset(intents, k) + j)
    requires score(Lower(q))[Offset(intents, k) + j] >= Threshold
    ensures Chat(Flatten(intents), score, q).intent == intents[k].tag
    ensures Chat(Flatten(intents), score, q).data == DataFor(intents[k].tag)
  {
    FlattenPlacesPattern(intents, k, j);
  }

  /** When position `k` holds the first best similarity and reaches the threshold, the reply is built from `tags[k]`. */
  lemma ChatPicksFirstBest(corpus: Corpus, score: string -> seq<real>, q: string, k: int)
    requires !IsBlank(q) && |score(Lower(q))| == |corpus.tags|
    requires IsFirstMax(score(Lower(q)), k) && score(Lower(q))[k] >= Threshold
    ensures Chat(corpus, score, q).intent == corpus.tags[k]
    ensures Chat(corpus, score, q).confidence == Clamp(score(Lower(q))[k])
    ensures Chat(corpus, score, q).data == DataFor(corpus.tags[k])
    ensures Chat(corpus, score, q).response == Respond(corpus.tags[k], DataFor(corpus.tags[k]))
  {
  }
}

=== FILE: classify.dfy ===
/**
 * The decision rule of `chat`: given one similarity per corpus pattern,
 * either reject the query as unknown or pick the tag of the first pattern
 * with the highest similarity, with that similarity, capped at 1.0, as the
 * confidence.
 */
module Classify {
  import opened Catalog

  /** Below this maximum similarity a query is rejected. */
  const Threshold: real := 0.25
  /** Confidence never exceeds this. */
  const MaxConfidence: real := 1.0

  /** The outcome of classification: a tag and a confidence. */
  datatype Decision = Decision(intent: string, confidence: real)

  /** `max(s)`, scanning left to right. */
  function Max(s: seq<real>): (m: real)
    requires |s| > 0
    ensures forall i :: 0 <= i < |s| ==> s[i] <= m
    ensures exists i :: 0 <= i < |s| && s[i] == m
  {
    if |s| == 1 then s[0]
    else
      var m := Max(s[..|s| - 1]);
      if s[|s| - 1] > m then s[|s| - 1] else m
  }

  /** `i` is the first position holding the largest value of `s`. */
  predicate IsFirstMax(s: seq<real>, i: int) {
    && 0 <= i < |s|
    && (forall j :: 0 <= j < |s| ==> s[j] <= s[i])
    && (forall j :: 0 <= j < i ==> s[j] < s[i])
  }

  /** There is at most one first maximum. */
  lemma FirstMaxUnique(s: seq<real>, i: int, k: int)
    requires IsFirstMax(s, i) && IsFirstMax(s, k)
    ensures i == k
  {
    assert s[i] <= s[k] && s[k] <= s[i];
  }

  /** `np.argmax(s)`: a left-to-right scan that moves only on a strictly larger value. */
  function FirstArgMax(s: seq<real>): (k: nat)
    requires |s| > 0
    ensures IsFirstMax(s, k)
  {
    if |s| == 1 then 0
    else
      var k := FirstArgMax(s[..|s| - 1]);
      if s[|s| - 1] > s[k] then |s| - 1 else k
  }

  /** `min(x, 1.0)`. */
  function Clamp(x: real): (r: real)
    ensures r <= MaxConfidence && r <= x
    ensures r == x || r == MaxConfidence
  {
    if x < MaxConfidence then x else MaxConfidence
  }

  /**
   * Classification against the corpus tags.  The confidence is 0.0 exactly
   * when every similarity is below the threshold (including when there is
   * none), and then the intent is unknown; otherwise the intent is the tag at
   * the first maximum and the confidence is that maximum capped at 1.0.
   */
  function Decide(tags: seq<string>, sims: seq<real>): (d: Decision)
    requires |sims| == |tags|
    ensures d.confidence == 0.0 <==> forall i :: 0 <= i < |sims| ==> sims[i] < Threshold
    ensures d.confidence == 0.0 ==> d.intent == Unknown
    ensures d.confidence != 0.0 ==> Threshold <= d.confidence <= MaxConfidence
    ensures forall i :: IsFirstMax(sims, i) && d.confidence != 0.0 ==>
              d.intent == tags[i] && d.confidence == Clamp(sims[i])
    ensures d.intent == Unknown || d.intent in tags
  {
    if |sims| == 0 || Max(sims) < Threshold then Decision(Unknown, 0.0)
    else
      var k := FirstArgMax(sims);
      assert sims[k] == Max(sims);
      assert forall i :: IsFirstMax(sims, i) ==> i == k by {
        forall i | IsFirstMax(sims, i)
          ensures i == k
        {
          FirstMaxUnique(sims, i, k);
        }
      }
      Decision(tags[k], Clamp(Max(sims)))
  }
}

=== FILE: options.dfy ===
/** The optional value returned by lookups that may miss. */
module Options {

  datatype Option<+T> = None | Some(value: T)
}

=== FILE: payload.dfy ===
/**
 * `get_data`: the fixed record each tag is answered with.  A record is a
 * Python dict; it is modelled as a sequence of (key, value) entries so that
 * the dict's insertion order, which the response follows, is kept.
 */
module Payload {
  import opened Options
  import opened Catalog
  import PyFormat

  /** The kinds of value a record holds. */
  datatype Value = Str(s: string) | Int(n: int) | StrList(items: seq<string>)

  /** A record's entries in insertion order. */
  type Record = seq<(string, Value)>

  /** The hint every tag without a record of its own receives. */
  const FallbackMessage: string :=
    "Try asking about sales, customers, inventory, or type 'commands' for help"

  /** No key occurs twice, as in a dict. */
  predicate KeysDistinct(r: Record) {
    forall i, j :: 0 <= i < j < |r| ==> r[i].0 != r[j].0
  }

  /** The keys of a record, in order. */
  function Keys(r: Record): (ks: seq<string>)
    ensures |ks| == |r|
    ensures forall i :: 0 <= i < |r| ==> ks[i] == r[i].0
  {
    if r == [] then [] else [r[0].0] + Keys(r[1..])
  }

  /** `r[key]`, or None when the key is absent. */
  function Lookup(r: Record, key: string): (v: Option<Value>)
    ensures v.None? <==> key !in Keys(r)
    ensures v.Some? ==> exists i :: 0 <= i < |r| && r[i] == (key, v.value)
  {
    if r == [] then None
    else if r[0].0 == key then Some(r[0].1)
    else Lookup(r[1..], key)
  }

  /** In a record with distinct keys, the lookup of an entry's key finds that entry's value. */
  lemma {:induction false} LookupFindsEntry(r: Record, i: int)
    requires KeysDistinct(r) && 0 <= i < |r|
    ensures Lookup(r, r[i].0) == Some(r[i].1)
    decreases |r|
  {
    if i > 0 {
      assert r[0].0 != r[i].0;
      LookupFindsEntry(r[1..], i - 1);
    }
  }

  function SalesRecord(): Record {
    [ ("total_sales", Str("$245,670")),
      ("growth", Str("+12.5%")),
      ("period", Str("Last 30 days")),
      ("top_product", Str("Premium Widget")) ]
  }

  function CustomerRecord(): Record {
    [ ("total_customers", Int(15234)),
      ("new_this_month", Int(234)),
      ("active_customers", Int(8945)),
      ("churn_rate", Str("2.3%")) ]
  }

  function InventoryRecord(): Record {
    [ ("in_stock", Int(3421)),
      ("low_stock", Int(23)),
      ("out_of_stock", Int(5)),
      ("warehouse_location", Str("New Jersey")) ]
  }

  function HelpRecord(): Record {
    [ ("available_commands", StrList(["sales", "customers", "inventory"])) ]
  }

  function FallbackRecord(): Record {
    [ ("message", Str(FallbackMessage)) ]
  }

  /**
   * `get_data(intent)`: total over all strings.  Every answer is a non-empty
   * dict, only the help record holds a list, and every tag outside the four
   * with records of their own, "unknown" included, gets the fallback hint.
   */
  function DataFor(intent: string): (r: Record)
    ensures |r| > 0 && KeysDistinct(r)
    ensures forall i :: 0 <= i < |r| && r[i].1.StrList? ==> intent == Help
    ensures intent !in [SalesData, CustomerCount, Inventory, Help] ==>
              Keys(r) == ["message"] && Lookup(r, "message") == Some(Str(FallbackMessage))
  {
    if intent == SalesData then SalesRecord()
    else if intent == CustomerCount then CustomerRecord()
    else if intent == Inventory then InventoryRecord()
    else if intent == Help then HelpRecord()
    else FallbackRecord()
  }

  /** The fields and values the data tests expect of each record. */
  lemma DataForFields()
    ensures Keys(DataFor(SalesData)) == ["total_sales", "growth", "period", "top_product"]
    ensures Lookup(DataFor(SalesData), "total_sales") == Some(Str("$245,670"))
    ensures Keys(DataFor(CustomerCount)) == ["total_customers", "new_this_month", "active_customers", "churn_rate"]
    ensures Lookup(DataFor(CustomerCount), "total_customers") == Some(Int(15234))
    ensures Keys(DataFor(Inventory)) == ["in_stock", "low_stock", "out_of_stock", "warehouse_location"]
    ensures Lookup(DataFor(Inventory), "in_stock") == Some(Int(3421))
    ensures Keys(DataFor(Help)) == ["available_commands"]
    ensures Keys(DataFor(Unknown)) == ["message"]
  {
  }

  /** What the f-string `{value}` writes for a value. */
  function ValueText(v: Value): string {
    match v
    case Str(s) => s
    case Int(n) => PyFormat.IntToStr(n)
    case StrList(items) => PyFormat.ListToStr(items)
  }
}

=== FILE: pyformat.dfy ===
/**
 * What Python's f-string `{value}` produces for the three kinds of payload
 * value the chatbot holds: a string as itself, an integer through `str(int)`,
 * and a list of strings through `str(list)`, which writes each element with
 * `repr`.
 *
 * Only the help record holds a list, and help is answered with the help
 * document rather than a rendered record, so `chat` never writes a list into
 * a response: the `repr` and `str(list)` part describes `Render` on arbitrary
 * records, not a text the chatbot produces.
 */
module PyFormat {

  predicate IsDigit(c: char) { '0' <= c <= '9' }

  function DigitChar(d: nat): (c: char)
    requires d < 10
    ensures IsDigit(c)
  {
    ('0' as int + d) as char
  }

  function DigitValue(c: char): (d: nat)
    requires IsDigit(c)
    ensures d < 10 && DigitChar(d) == c
  {
    c as int - '0' as int
  }

  predicate AllDigits(s: string) {
    forall i :: 0 <= i < |s| ==> IsDigit(s[i])
  }

  /** The digit strings `str` can print: non-empty, no leading zero unless the number is 0. */
  predicate IsCanonical(s: string) {
    |s| > 0 && AllDigits(s) && (s[0] == '0' ==> |s| == 1)
  }

  /** `str(n)` for a natural number: its canonical decimal numeral. */
  function NatToDecimal(n: nat): (r: string)
    ensures IsCanonical(r)
    ensures |r| == 1 <==> n < 10
    decreases n
  {
    if n < 10 then [DigitChar(n)] else NatToDecimal(n / 10) + [DigitChar(n % 10)]
  }

  /** The number a string of decimal digits denotes, read left to right. */
  function DecimalValue(s: string): nat
    requires AllDigits(s)
  {
    if s == [] then 0 else DecimalValue(s[..|s| - 1]) * 10 + DigitValue(s[|s| - 1])
  }

  /** Reading back what `NatToDecimal` prints gives the number. */
  lemma {:induction false} DecimalRoundTrip(n: nat)
    ensures DecimalValue(NatToDecimal(n)) == n
    decreases n
  {
    if n >= 10 {
      var s := NatToDecimal(n);
      assert s[..|s| - 1] == NatToDecimal(n / 10);
      DecimalRoundTrip(n / 10);
    }
  }

  /** A numeral without a leading zero denotes at least its first digit. */
  lemma {:induction false} DecimalValueAtLeastLead(s: string)
    requires |s| > 0 && AllDigits(s)
    ensures DecimalValue(s) >= DigitValue(s[0])
    decreases |s|
  {
    if |s| > 1 {
      DecimalValueAtLeastLead(s[..|s| - 1]);
    }
  }

  /** Every canonical numeral is the one `NatToDecimal` prints for its value. */
  lemma {:induction false} DecimalCanonical(s: string)
    requires IsCanonical(s)
    ensures NatToDecimal(DecimalValue(s)) == s
    decreases |s|
  {
    if |s| > 1 {
      var p := s[..|s| - 1];
      var d := DigitValue(s[|s| - 1]);
      DecimalValueAtLeastLead(p);
      DecimalCanonical(p);
      var n := DecimalValue(s);
      assert n == DecimalValue(p) * 10 + d;
      assert n / 10 == DecimalValue(p) && n % 10 == d;
      assert s == p + [s[|s| - 1]];
    }
  }

  /** `str(n)` for any integer: a minus sign before the magnitude when negative. */
  function IntToStr(n: int): (r: string)
    ensures |r| > 0
    ensures n < 0 <==> r[0] == '-'
    ensures n < 0 ==> IsCanonical(r[1..]) && DecimalValue(r[1..]) == -n
    ensures n >= 0 ==> IsCanonical(r) && DecimalValue(r) == n
  {
    if n < 0 then
      DecimalRoundTrip(-n);
      assert ("-" + NatToDecimal(-n))[1..] == NatToDecimal(-n);
      "-" + NatToDecimal(-n)
    else
      DecimalRoundTrip(n);
      NatToDecimal(n)
  }

  /** `repr(s)`'s choice of quote: double quotes only when `s` has a single quote and no double quote. */
  function QuoteFor(s: string): (q: char)
    ensures q == '\'' || q == '"'
    ensures q == '"' <==> ('\'' in s && '"' !in s)
  {
    if '\'' in s && '"' !in s then '"' else '\''
  }

  /** The character a backslash escape stands for inside a literal quoted by `q`. */
  function EscapedChar(e: char, q: char): char {
    if e == 'n' then '\n'
    else if e == 'r' then '\r'
    else if e == 't' then '\t'
    else e
  }

  /**
   * The escape `repr` writes for one character inside a literal quoted by `q`:
   * a backslash, the quote and the three control characters become a
   * backslash and a letter that reads back as the character; every other
   * character is written as itself.
   */
  function EscapeChar(c: char, q: char): (r: string)
    requires q == '\'' || q == '"'
    ensures |r| >= 1
    ensures (c == '\\' || c == q || c == '\n' || c == '\r' || c == '\t') <==> (|r| == 2 && r[0] == '\\')
    ensures |r| == 2 ==> EscapedChar(r[1], q) == c && r[1] != '\n' && r[1] != '\r' && r[1] != '\t'
    ensures |r| == 1 <==> r == [c]
    ensures !(c == '\\' || c == q || c == '\n' || c == '\r' || c == '\t') ==> r == [c]
  {
    if c == '\\' then "\\\\"
    else if c == q then ['\\', q]
    else if c == '\n' then "\\n"
    else if c == '\r' then "\\r"
    else if c == '\t' then "\\t"
    else [c]
  }

  /** The body of `repr(s)` between its quotes. */
  function Escape(s: string, q: char): string
    requires q == '\'' || q == '"'
  {
    if s == [] then [] else EscapeChar(s[0], q) + Escape(s[1..], q)
  }

  /** Reading a literal body back: a backslash and the next character stand for one character. */
  function Unescape(t: string, q: char): string {
    if t == [] then []
    else if t[0] == '\\' && |t| >= 2 then [EscapedChar(t[1], q)] + Unescape(t[2..], q)
    else [t[0]] + Unescape(t[1..], q)
  }

  /** Reading back the body `repr` writes gives the original string. */
  lemma {:induction false} EscapeRoundTrip(s: string, q: char)
    requires q == '\'' || q == '"'
    ensures Unescape(Escape(s, q), q) == s
    decreases |s|
  {
    if s != [] {
      var e := EscapeChar(s[0], q);
      var rest := Escape(s[1..], q);
      EscapeRoundTrip(s[1..], q);
      if |e| == 2 {
        assert (e + rest)[2..] == rest;
      } else {
        assert (e + rest)[1..] == rest;
      }
    }
  }

  /** A character `repr` copies as itself. */
  predicate IsPlain(c: char) {
    c != '\\' && c != '\'' && c != '"' && c != '\n' && c != '\r' && c != '\t'
  }

  /** Escaping leaves a string of plain characters untouched. */
  lemma {:induction false} EscapePlain(s: string, q: char)
    requires forall i :: 0 <= i < |s| ==> IsPlain(s[i])
    requires q == '\'' || q == '"'
    ensures Escape(s, q) == s
    decreases |s|
  {
    if s != [] {
      EscapePlain(s[1..], q);
    }
  }

  /**
   * `repr(s)` for a string: quoted on both ends, with a body that writes each
   * character through `EscapeChar` and reads back as `s`, and `'s'` itself
   * when `s` needs no escape.
   */
  function Repr(s: string): (r: string)
    ensures |r| >= 2 && r[0] == r[|r| - 1] == QuoteFor(s)
    ensures r[1..|r| - 1] == Escape(s, QuoteFor(s))
    ensures Unescape(r[1..|r| - 1], QuoteFor(s)) == s
    ensures (forall i :: 0 <= i < |s| ==> IsPlain(s[i])) ==> r == "'" + s + "'"
  {
    var q := QuoteFor(s);
    var r := [q] + Escape(s, q) + [q];
    assert r[1..|r| - 1] == Escape(s, q);
    EscapeRoundTrip(s, q);
    assert (forall i :: 0 <= i < |s| ==> IsPlain(s[i])) ==> r == "'" + s + "'" by {
      if forall i :: 0 <= i < |s| ==> IsPlain(s[i]) {
        EscapePlain(s, q);
        assert '\'' !in s;
      }
    }
    r
  }

  /** A string holding both quotes is single-quoted with its single quote escaped. */
  lemma BothQuotes()
    ensures Repr("'\"") == "'\\'\"'"
  {
    var s := "'\"";
    assert QuoteFor(s) == '\'';
    assert Escape(s, '\'') == EscapeChar('\'', '\'') + EscapeChar('"', '\'') + Escape([], '\'');
  }

  /** The elements' `repr`s separated by ", ". */
  function JoinReprs(xs: seq<string>): string {
    if xs == [] then []
    else if |xs| == 1 then Repr(xs[0])
    else Repr(xs[0]) + ", " + JoinReprs(xs[1..])
  }

  /** Writing strings one after another does not depend on how the writes are grouped. */
  lemma ConcatAssoc(a: string, b: string, c: string)
    ensures a + (b + c) == (a + b) + c
  {
  }

  /** A longer list adds ", " and the new element's `repr` at the end. */
  lemma {:induction false} JoinReprsSnoc(xs: seq<string>, x: string)
    requires xs != []
    ensures JoinReprs(xs + [x]) == JoinReprs(xs) + ", " + Repr(x)
    decreases |xs|
  {
    var h := Repr(xs[0]);
    if |xs| == 1 {
      assert xs + [x] == [xs[0], x];
      assert JoinReprs([x]) == Repr(x);
    } else {
      var tail := JoinReprs(xs[1..]);
      assert (xs + [x])[1..] == xs[1..] + [x];
      JoinReprsSnoc(xs[1..], x);
      assert JoinReprs(xs + [x]) == h + ", " + (tail + ", " + Repr(x));
      ConcatAssoc(h + ", ", tail, ", " + Repr(x));
      ConcatAssoc(h + ", " + tail, ", ", Repr(x));
      ConcatAssoc(tail, ", ", Repr(x));
    }
  }

  /** `str(xs)` for a list of strings. */
  function ListToStr(xs: seq<string>): (r: string)
    ensures |r| >= 2 && r[0] == '[' && r[|r| - 1] == ']'
    ensures xs == [] <==> r == "[]"
  {
    var body := JoinReprs(xs);
    assert xs != [] ==> |body| >= 2;
    "[" + body + "]"
  }

  /**
   * `str(xs)` element by element: a one-element list is its element's `repr`
   * in brackets, and each further element adds ", " and its `repr` before
   * the closing bracket.
   */
  lemma ListToStrSnoc(xs: seq<string>, x: string)
    ensures ListToStr([x]) == "[" + Repr(x) + "]"
    ensures xs != [] ==>
              ListToStr(xs + [x]) == ListToStr(xs)[..|ListToStr(xs)| - 1] + ", " + Repr(x) + "]"
  {
    assert JoinReprs([x]) == Repr(x);
    if xs != [] {
      JoinReprsSnoc(xs, x);
      var j := JoinReprs(xs);
      var r := ListToStr(xs);
      assert r == "[" + j + "]";
      assert r[..|r| - 1] == "[" + j;
      ConcatAssoc("[", j + ", ", Repr(x));
      ConcatAssoc("[", j, ", ");
    }
  }
}

=== FILE: pystr.dfy ===
/**
 * The Python `str` methods the chatbot relies on: `isspace` (through
 * `strip`), `lower`, `title` and `replace('_', ' ')`.  `UpperChar` is the
 * letter map `title` applies to the first letter of each word; `Upper` is
 * not called by the chatbot and serves to state that upper-casing a query
 * does not change its reply.
 *
 * Case mapping is modelled for the ASCII letters only; every other
 * character is its own upper- and lower-case form.  The whitespace set is
 * the fixed list of code points Python's `str.isspace` accepts.
 */
module PyStr {

  /** A character Python's `str.isspace()` accepts. */
  predicate IsSpace(c: char) {
    || c == ' '
    || ('\t' <= c <= '\r')
    || ('\U{1C}' <= c <= '\U{1F}')
    || c == '\U{85}'
    || c == '\U{A0}'
    || c == '\U{1680}'
    || ('\U{2000}' <= c <= '\U{200A}')
    || c == '\U{2028}'
    || c == '\U{2029}'
    || c == '\U{202F}'
    || c == '\U{205F}'
    || c == '\U{3000}'
  }

  /** `not s or not s.strip()`: the string is empty or holds whitespace only. */
  predicate IsBlank(s: string) {
    forall i :: 0 <= i < |s| ==> IsSpace(s[i])
  }

  /** `s.lstrip()`: drops the leading whitespace and nothing else. */
  function TrimStart(s: string): (r: string)
    ensures |r| <= |s| && r == s[|s| - |r|..]
    ensures forall i :: 0 <= i < |s| - |r| ==> IsSpace(s[i])
    ensures |r| > 0 ==> !IsSpace(r[0])
  {
    if |s| > 0 && IsSpace(s[0]) then TrimStart(s[1..]) else s
  }

  /** `s.rstrip()`: drops the trailing whitespace and nothing else. */
  function TrimEnd(s: string): (r: string)
    ensures |r| <= |s| && r == s[..|r|]
    ensures forall i :: |r| <= i < |s| ==> IsSpace(s[i])
    ensures |r| > 0 ==> !IsSpace(r[|r| - 1])
  {
    if |s| > 0 && IsSpace(s[|s| - 1]) then TrimEnd(s[..|s| - 1]) else s
  }

  /** `r` is `s[a..b]`, and everything of `s` outside that slice is whitespace. */
  predicate TrimmedSlice(s: string, r: string, a: int, b: int) {
    && 0 <= a <= b <= |s|
    && r == s[a..b]
    && (forall i :: 0 <= i < a ==> IsSpace(s[i]))
    && (forall i :: b <= i < |s| ==> IsSpace(s[i]))
  }

  /**
   * `s.strip()`: the slice of `s` left after removing whitespace, and only
   * whitespace, from both ends; what is left has no whitespace at either end.
   */
  function Strip(s: string): (r: string)
    ensures exists a, b :: TrimmedSlice(s, r, a, b)
    ensures |r| > 0 ==> !IsSpace(r[0]) && !IsSpace(r[|r| - 1])
  {
    var t := TrimStart(s);
    var r := TrimEnd(t);
    TrimBothEnds(s, t, r);
    r
  }

  /**
   * Removing a whitespace prefix of `s` to get `t`, then a whitespace suffix
   * of `t` to get `r`, leaves `r` as a slice of `s` with only whitespace
   * outside it.
   */
  lemma TrimBothEnds(s: string, t: string, r: string)
    requires |t| <= |s| && t == s[|s| - |t|..]
    requires forall i :: 0 <= i < |s| - |t| ==> IsSpace(s[i])
    requires |r| <= |t| && r == t[..|r|]
    requires forall i :: |r| <= i < |t| ==> IsSpace(t[i])
    ensures TrimmedSlice(s, r, |s| - |t|, |s| - |t| + |r|)
  {
    var a := |s| - |t|;
    forall i | a + |r| <= i < |s|
      ensures IsSpace(s[i])
    {
      assert s[i] == t[i - a];
    }
  }

  /** The guard of the chat entry point: stripping leaves nothing exactly when the string is blank. */
  lemma StripEmptyIffBlank(s: string)
    ensures Strip(s) == [] <==> IsBlank(s)
  {
    var t := TrimStart(s);
    if Strip(s) == [] {
      assert |t| == 0;
    } else {
      var r := Strip(s);
      var k :| 0 <= k < |s| && s[k] == r[0];
      assert !IsSpace(s[k]);
    }
  }

  predicate IsUpper(c: char) { 'A' <= c <= 'Z' }

  predicate IsLower(c: char) { 'a' <= c <= 'z' }

  /** A cased character, in Python's sense, restricted to ASCII. */
  predicate IsCased(c: char) { IsUpper(c) || IsLower(c) }

  /** `c.lower()` on ASCII: an upper-case letter becomes the same letter in lower case, anything else stays. */
  function LowerChar(c: char): (r: char)
    ensures !IsUpper(r)
    ensures IsCased(r) == IsCased(c)
    ensures IsUpper(c) ==> IsLower(r) && r as int - 'a' as int == c as int - 'A' as int
    ensures !IsUpper(c) ==> r == c
  {
    if IsUpper(c) then (c as int + 32) as char else c
  }

  /** `c.upper()` on ASCII: a lower-case letter becomes the same letter in upper case, anything else stays. */
  function UpperChar(c: char): (r: char)
    ensures !IsLower(r)
    ensures IsCased(r) == IsCased(c)
    ensures IsLower(c) ==> IsUpper(r) && r as int - 'A' as int == c as int - 'a' as int
    ensures !IsLower(c) ==> r == c
  {
    if IsLower(c) then (c as int - 32) as char else c
  }

  /** `s.lower()`: every character through `LowerChar`. */
  function Lower(s: string): string {
    seq(|s|, i requires 0 <= i < |s| => LowerChar(s[i]))
  }

  /** `s.upper()`: every character through `UpperChar`. */
  function Upper(s: string): string {
    seq(|s|, i requires 0 <= i < |s| => UpperChar(s[i]))
  }

  /** Lower-casing twice is lower-casing once. */
  lemma LowerIdempotent(s: string)
    ensures Lower(Lower(s)) == Lower(s)
  {
  }

  /** `s.upper().lower() == s.lower()`: an upper-cased query reads the same once lower-cased. */
  lemma LowerOfUpper(s: string)
    ensures Lower(Upper(s)) == Lower(s)
  {
    forall i | 0 <= i < |s|
      ensures Lower(Upper(s))[i] == Lower(s)[i]
    {
      var c := s[i];
      if IsLower(c) {
        assert UpperChar(c) as int == c as int - 32;
      }
    }
  }

  /** Lower-casing neither creates nor removes whitespace. */
  lemma BlankIffLowerBlank(s: string)
    ensures IsBlank(Lower(s)) <==> IsBlank(s)
  {
    assert forall i :: 0 <= i < |s| ==> (IsSpace(Lower(s)[i]) <==> IsSpace(s[i]));
  }

  /** The first character of a word, in `str.title()`'s sense: nothing cased precedes it. */
  predicate StartsWord(s: string, i: int)
    requires 0 <= i < |s|
  {
    i == 0 || !IsCased(s[i - 1])
  }

  /**
   * The loop inside `str.title()`: a character is upper-cased when the one
   * before it (or, at the start, `prevCased`) is not cased, and lower-cased
   * otherwise.
   */
  function TitleScan(s: string, prevCased: bool): (r: string)
    ensures |r| == |s|
    ensures |s| > 0 ==> r[0] == if prevCased then LowerChar(s[0]) else UpperChar(s[0])
    ensures forall i :: 0 < i < |s| ==>
              r[i] == if IsCased(s[i - 1]) then LowerChar(s[i]) else UpperChar(s[i])
  {
    if s == [] then []
    else
      var c := if prevCased then LowerChar(s[0]) else UpperChar(s[0]);
      [c] + TitleScan(s[1..], IsCased(s[0]))
  }

  /** `s.title()`: the first letter of every word upper-case, every other letter lower-case. */
  function Title(s: string): string {
    seq(|s|, i requires 0 <= i < |s| => if StartsWord(s, i) then UpperChar(s[i]) else LowerChar(s[i]))
  }

  /** The scanning loop computes exactly the word-by-word rule. */
  lemma TitleScanIsTitle(s: string)
    ensures TitleScan(s, false) == Title(s)
  {
  }

  /** Title-casing keeps every character's cased-ness, so word boundaries do not move. */
  lemma TitleIdempotent(s: string)
    ensures Title(Title(s)) == Title(s)
  {
    var t := Title(s);
    forall i | 0 <= i < |s|
      ensures Title(t)[i] == t[i]
    {
      if i > 0 {
        assert IsCased(t[i - 1]) == IsCased(s[i - 1]);
      }
      assert StartsWord(t, i) == StartsWord(s, i);
      CaseMapsCompose(s[i]);
    }
  }

  /** Title-casing only changes case: `s.title().lower() == s.lower()`. */
  lemma LowerOfTitle(s: string)
    ensures Lower(Title(s)) == Lower(s)
  {
    var t := Title(s);
    forall i | 0 <= i < |s|
      ensures LowerChar(t[i]) == LowerChar(s[i])
    {
      CaseMapsCompose(s[i]);
    }
  }

  /** Applying a case map after another is the same as applying the outer one alone. */
  lemma CaseMapsCompose(c: char)
    ensures LowerChar(UpperChar(c)) == LowerChar(c)
    ensures LowerChar(LowerChar(c)) == LowerChar(c)
    ensures UpperChar(LowerChar(c)) == UpperChar(c)
    ensures UpperChar(UpperChar(c)) == UpperChar(c)
  {
    if IsLower(c) {
      assert UpperChar(c) as int == c as int - 32;
    } else if IsUpper(c) {
      assert LowerChar(c) as int == c as int + 32;
    }
  }

  /** `s.replace('_', ' ')`. */
  function UnderscoresToSpaces(s: string): string {
    seq(|s|, i requires 0 <= i < |s| => if s[i] == '_' then ' ' else s[i])
  }

  /** `s.replace('_', ' ').title()`, the chatbot's display form of a tag or a field name. */
  function Humanize(s: string): string {
    Title(UnderscoresToSpaces(s))
  }

  /**
   * Humanizing keeps the length, leaves no underscore, puts a space exactly
   * where `s` had an underscore or a space, differs from `s` in letter case
   * only, and upper-cases the first letter of every word.
   */
  lemma HumanizeShape(s: string)
    ensures |Humanize(s)| == |s|
    ensures forall i :: 0 <= i < |s| ==> Humanize(s)[i] != '_'
    ensures forall i :: 0 <= i < |s| ==> (Humanize(s)[i] == ' ' <==> s[i] == '_' || s[i] == ' ')
    ensures forall i :: 0 <= i < |s| && s[i] != '_' ==> LowerChar(Humanize(s)[i]) == LowerChar(s[i])
    ensures forall i :: 0 <= i < |s| && StartsWord(s, i) && IsLower(s[i]) ==> IsUpper(Humanize(s)[i])
  {
    forall i | 0 <= i < |s| {
      HumanizeAt(s, i);
    }
  }

  /** One position of `HumanizeShape`. */
  lemma HumanizeAt(s: string, i: int)
    requires 0 <= i < |s|
    ensures |Humanize(s)| == |s|
    ensures Humanize(s)[i] != '_'
    ensures Humanize(s)[i] == ' ' <==> s[i] == '_' || s[i] == ' '
    ensures s[i] != '_' ==> LowerChar(Humanize(s)[i]) == LowerChar(s[i])
    ensures StartsWord(s, i) && IsLower(s[i]) ==> IsUpper(Humanize(s)[i])
  {
    var u := UnderscoresToSpaces(s);
    var c := if StartsWord(u, i) then UpperChar(u[i]) else LowerChar(u[i]);
    assert Humanize(s)[i] == c;
    CaseMapsCompose(u[i]);
    if i > 0 {
      assert IsCased(u[i - 1]) == IsCased(s[i - 1]);
    }
  }

  /** A non-empty run of lower-case letters, as in a snake_case identifier. */
  predicate IsWord(w: string) {
    |w| > 0 && forall i :: 0 <= i < |w| ==> IsLower(w[i])
  }

  /** `w.capitalize()` for a lower-case word. */
  function Capitalize(w: string): string {
    if w == [] then [] else [UpperChar(w[0])] + w[1..]
  }

  /** Every word capitalised. */
  function CapitalizeAll(ws: seq<string>): (r: seq<string>)
    ensures |r| == |ws|
  {
    if ws == [] then [] else [Capitalize(ws[0])] + CapitalizeAll(ws[1..])
  }

  /** The words joined by the separator. */
  function JoinWith(ws: seq<string>, sep: char): string {
    if |ws| == 0 then ""
    else if |ws| == 1 then ws[0]
    else ws[0] + [sep] + JoinWith(ws[1..], sep)
  }

  /** Replacing underscores works piece by piece. */
  lemma UnderscoresToSpacesConcat(a: string, b: string)
    ensures UnderscoresToSpaces(a + b) == UnderscoresToSpaces(a) + UnderscoresToSpaces(b)
  {
  }

  /** An uncased character cuts `str.title()` into two independent halves. */
  lemma TitleSplit(a: string, c: char, b: string)
    requires !IsCased(c)
    ensures Title(a + [c] + b) == Title(a) + [c] + Title(b)
  {
    var s := a + [c] + b;
    var r := Title(a) + [c] + Title(b);
    forall i | 0 <= i < |s|
      ensures Title(s)[i] == r[i]
    {
      if i < |a| {
        assert s[i] == a[i];
        assert StartsWord(s, i) == StartsWord(a, i);
      } else if i == |a| {
        assert s[i] == c;
      } else {
        var j := i - |a| - 1;
        assert s[i] == b[j];
        assert StartsWord(s, i) == StartsWord(b, j);
      }
    }
  }

  /** `str.title()` capitalises a lower-case word. */
  lemma TitleOfWord(w: string)
    requires IsWord(w)
    ensures Title(w) == Capitalize(w)
  {
    forall i | 0 <= i < |w|
      ensures Title(w)[i] == Capitalize(w)[i]
    {
      if i > 0 {
        assert !StartsWord(w, i);
      }
    }
  }

  /**
   * Humanizing a snake_case identifier of lower-case words gives the words
   * capitalised and separated by single spaces.
   */
  lemma {:induction false} HumanizeSnakeCase(ws: seq<string>)
    requires forall k :: 0 <= k < |ws| ==> IsWord(ws[k])
    ensures Humanize(JoinWith(ws, '_')) == JoinWith(CapitalizeAll(ws), ' ')
    decreases |ws|
  {
    if |ws| == 1 {
      TitleOfWord(ws[0]);
      assert UnderscoresToSpaces(ws[0]) == ws[0];
    } else if |ws| > 1 {
      var caps := CapitalizeAll(ws);
      HumanizeWordThen(ws[0], JoinWith(ws[1..], '_'));
      HumanizeSnakeCase(ws[1..]);
      assert caps[0] == Capitalize(ws[0]) && caps[1..] == CapitalizeAll(ws[1..]);
    }
  }

  /** A leading lower-case word and underscore humanize to the capitalised word and a space. */
  lemma HumanizeWordThen(w: string, rest: string)
    requires IsWord(w)
    ensures Humanize(w + ['_'] + rest) == Capitalize(w) + [' '] + Humanize(rest)
  {
    assert UnderscoresToSpaces(w) == w;
    UnderscoresToSpacesConcat(w + ['_'], rest);
    UnderscoresToSpacesConcat(w, ['_']);
    assert UnderscoresToSpaces(w + ['_'] + rest) == w + [' '] + UnderscoresToSpaces(rest);
    TitleSplit(w, ' ', UnderscoresToSpaces(rest));
    TitleOfWord(w);
  }
}

=== FILE: scenarios.dfy ===
/**
 * Concrete behaviour of the chatbot built on its own catalog, for the
 * queries the test suite exercises.  The scorer is a parameter throughout:
 * each scenario states what the reply is given the similarities it assumes.
 */
module Scenarios {
  import opened Options
  import opened Catalog
  import opened Classify
  import opened Payload
  import opened PyStr
  import opened Chatbot

  /** Similarity 1.0 at position `k` of `n` and 0.0 everywhere else. */
  function OneHot(n: nat, k: nat): (s: seq<real>)
    requires k < n
    ensures |s| == n && s[k] == 1.0
    ensures forall i :: 0 <= i < n && i != k ==> s[i] == 0.0
  {
    seq(n, i => if i == k then 1.0 else 0.0)
  }

  /**
   * The scorer ranks pattern `k` of `n` first, with full similarity: the
   * vector has one entry per pattern, its first maximum is at `k`, and that
   * maximum is at least 1.0.  Other patterns may score anything up to it.
   */
  predicate BestAt(s: seq<real>, n: nat, k: nat) {
    |s| == n && IsFirstMax(s, k) && s[k] >= 1.0
  }

  /** The empty and the all-space query both get the fixed prompt, intent unknown and no data. */
  lemma EmptyAndSpacesGetPrompt(corpus: Corpus, score: string -> seq<real>)
    ensures Chat(corpus, score, "") == Reply(Unknown, EmptyPrompt, [], 0.0)
    ensures Chat(corpus, score, "   ") == Reply(Unknown, EmptyPrompt, [], 0.0)
  {
    assert IsBlank("");
    assert IsBlank("   ");
  }

  /** "CUSTOMER COUNT", "Customer Count" and "customer count" are scored as one query. */
  lemma CaseVariantsAgree(corpus: Corpus, score: string -> seq<real>)
    requires |score("customer count")| == |corpus.tags|
    ensures ScoresFit(corpus, score, "CUSTOMER COUNT") && ScoresFit(corpus, score, "Customer Count")
    ensures ScoresFit(corpus, score, "customer count")
    ensures Chat(corpus, score, "CUSTOMER COUNT") == Chat(corpus, score, "customer count")
    ensures Chat(corpus, score, "Customer Count") == Chat(corpus, score, "customer count")
  {
    assert Lower("CUSTOMER COUNT") == "customer count";
    assert Lower("Customer Count") == "customer count";
    assert Lower("customer count") == "customer count";
    ChatCaseInsensitive(corpus, score, "customer count", "CUSTOMER COUNT");
    ChatCaseInsensitive(corpus, score, "customer count", "Customer Count");
  }

  /**
   * "unknown" is a catalog intent too: a query that matches its pattern
   * "weather" best is classified as unknown with full confidence, not 0.0.
   */
  lemma UnknownReachedByOwnPattern(score: string -> seq<real>, q: string)
    requires !IsBlank(q)
    requires BestAt(score(Lower(q)), 41, 34)
    ensures TheCorpus().patterns[34] == "weather"
    ensures Chat(TheCorpus(), score, q).intent == Unknown
    ensures Chat(TheCorpus(), score, q).confidence == 1.0
  {
    CatalogSize();
    WeatherPatternAt34();
    ChatPicksFirstBest(TheCorpus(), score, q, 34);
  }

  /** The single 1.0 of a one-hot vector is its first maximum, so a one-hot score is a best-at score. */
  lemma OneHotFirstMax(n: nat, k: nat)
    requires k < n
    ensures IsFirstMax(OneHot(n, k), k)
    ensures BestAt(OneHot(n, k), n, k)
  {
  }

  /** A four-entry record renders as its four lines in order. */
  lemma LinesOfFour(rec: Record)
    requires |rec| == 4
    ensures Lines(rec) == FieldLine(rec[0]) + FieldLine(rec[1]) + FieldLine(rec[2]) + FieldLine(rec[3])
  {
    var a, b, c, d := FieldLine(rec[0]), FieldLine(rec[1]), FieldLine(rec[2]), FieldLine(rec[3]);
    var r1 := rec[1..];
    var r2 := r1[1..];
    var r3 := r2[1..];
    assert r1[0] == rec[1] && r2[0] == rec[2] && r3[0] == rec[3] && r3[1..] == [];
    assert Lines(r3) == d;
    assert Lines(r2) == c + d;
    assert Lines(r1) == b + (c + d);
    PyFormat.ConcatAssoc(b, c, d);
    PyFormat.ConcatAssoc(a, b + c, d);
    PyFormat.ConcatAssoc(a, b, c);
  }

  // The line and name lemmas below take the entry or key as a parameter fixed
  // by `requires` instead of mentioning the literal directly.  A literal
  // argument lets the verifier unfold `Humanize` character by character on
  // its own, which makes these small facts needlessly expensive; through a
  // parameter the unfolding happens only where the proof asks for it.

  /** The line of the sales record's first field. */
  lemma TotalSalesLine(e: (string, Value))
    requires e == ("total_sales", Str("$245,670"))
    ensures FieldLine(e) == "**" + "Total Sales" + ":** " + "$245,670" + "\n\n"
  {
    TotalSalesName(e.0);
    StrFieldLine(e.0, "Total Sales", e.1.s);
  }

  /** The line of the sales record's second field. */
  lemma GrowthLine(e: (string, Value))
    requires e == ("growth", Str("+12.5%"))
    ensures FieldLine(e) == "**" + "Growth" + ":** " + "+12.5%" + "\n\n"
  {
    assert Humanize("growth") == "Growth";
  }

  /** The line of the sales record's third field. */
  lemma PeriodLine(e: (string, Value))
    requires e == ("period", Str("Last 30 days"))
    ensures FieldLine(e) == "**" + "Period" + ":** " + "Last 30 days" + "\n\n"
  {
    assert Humanize("period") == "Period";
  }

  /** The line of the sales record's fourth field. */
  lemma TopProductLine(e: (string, Value))
    requires e == ("top_product", Str("Premium Widget"))
    ensures FieldLine(e) == "**" + "Top Product" + ":** " + "Premium Widget" + "\n\n"
  {
    TopProductName(e.0);
    StrFieldLine(e.0, "Top Product", e.1.s);
  }

  /** The display form of the sales record's first field name. */
  lemma TotalSalesName(k: string)
    requires k == "total_sales"
    ensures Humanize(k) == "Total Sales"
  {
    HumanizeWordThen("total", "sales");
    assert "total" + ['_'] + "sales" == "total_sales";
  }

  /** The display form of the sales record's fourth field name. */
  lemma TopProductName(k: string)
    requires k == "top_product"
    ensures Humanize(k) == "Top Product"
  {
    HumanizeWordThen("top", "product");
    assert "top" + ['_'] + "product" == "top_product";
  }

  /** The title line of the sales response. */
  lemma SalesHeader()
    ensures Header(SalesData) == "### " + ChartEmoji + " " + "Sales Data" + "\n\n"
  {
    assert Humanize("sales_data") == "Sales Data";
  }

  /** The line of a string-valued field, given the field's display name. */
  lemma StrFieldLine(key: string, shown: string, v: string)
    requires Humanize(key) == shown
    ensures FieldLine((key, Str(v))) == "**" + shown + ":** " + v + "\n\n"
  {
  }

  /** The response to a query classified as sales: the title line, then one line per field in the record's order. */
  lemma SalesResponseText()
    ensures Respond(SalesData, DataFor(SalesData)) ==
              ("### " + ChartEmoji + " " + "Sales Data" + "\n\n")
              + ("**" + "Total Sales" + ":** " + "$245,670" + "\n\n")
              + ("**" + "Growth" + ":** " + "+12.5%" + "\n\n")
              + ("**" + "Period" + ":** " + "Last 30 days" + "\n\n")
              + ("**" + "Top Product" + ":** " + "Premium Widget" + "\n\n")
  {
    var rec := SalesRecord();
    SalesHeader();
    TotalSalesLine(rec[0]);
    GrowthLine(rec[1]);
    PeriodLine(rec[2]);
    TopProductLine(rec[3]);
    LinesOfFour(rec);
    RenderLayout(SalesData, rec);
    ConcatRegroup(Header(SalesData), FieldLine(rec[0]), FieldLine(rec[1]), FieldLine(rec[2]), FieldLine(rec[3]));
  }

  /** Appending four strings at once or one by one gives the same string. */
  lemma ConcatRegroup(h: string, a: string, b: string, c: string, d: string)
    ensures h + (a + b + c + d) == h + a + b + c + d
  {
  }

  /** "show sales", scored best against its own pattern, yields the sales record and its response. */
  lemma ShowSalesReply(score: string -> seq<real>, q: string)
    requires q == "show sales"
    requires BestAt(score(q), 41, 0)
    ensures ScoresFit(TheCorpus(), score, q)
    ensures Chat(TheCorpus(), score, q).intent == SalesData
    ensures Chat(TheCorpus(), score, q).confidence == 1.0
    ensures Lookup(Chat(TheCorpus(), score, q).data, "total_sales") == Some(Str("$245,670"))
    ensures Chat(TheCorpus(), score, q).response == Respond(SalesData, DataFor(SalesData))
  {
    SalesPatternFirst();
    ShowSalesIsPlain(q);
    ReplyAtFirstTag(TheCorpus(), score, q);
  }

  /** "show sales" is already lower case and not blank. */
  lemma ShowSalesIsPlain(q: string)
    requires q == "show sales"
    ensures Lower(q) == q && !IsBlank(q)
  {
    assert Lower(q) == q;
    assert !IsSpace(q[0]);
  }

  /** A non-blank query scored best, with full similarity, at position 0 of a 41-pattern corpus whose first tag is sales gets the sales reply. */
  lemma ReplyAtFirstTag(corpus: Corpus, score: string -> seq<real>, q: string)
    requires |corpus.tags| == 41 && corpus.tags[0] == SalesData
    requires !IsBlank(q) && BestAt(score(Lower(q)), 41, 0)
    ensures ScoresFit(corpus, score, q)
    ensures Chat(corpus, score, q).intent == SalesData
    ensures Chat(corpus, score, q).confidence == 1.0
    ensures Lookup(Chat(corpus, score, q).data, "total_sales") == Some(Str("$245,670"))
    ensures Chat(corpus, score, q).response == Respond(SalesData, DataFor(SalesData))
  {
    ChatPicksFirstBest(corpus, score, q, 0);
    assert SalesRecord()[0] == ("total_sales", Str("$245,670"));
  }
}
